=== FILE: README.md ===
# Battlesnake starter service in Dafny

This project models the core of a C# starter service for Battlesnake, a
turn-based multiplayer game in which autonomous snakes move on a grid. A
game engine calls the service over HTTP at game start (`/start`), once per
turn (`/move`) and at game end (`/end`), plus a health check (`/ping`).
The model covers three parts, each stated as pure functions over immutable
datatypes:

- the game-state values (`ApiModel/`): `Coord` with its one-step move,
  structural equality and hash; `Board.OnBoard`; `Snake` with `Head`,
  `Tail`, `GrowthLeft` and `EffectiveLength`; `Game` with id-based,
  null-safe equality; `GameState` as a plain record;
- the reply encoders: `ResponseMove.FormatDirection` (the tokens `up`,
  `right`, `down`, `left`) and `ResponseStart` (`#RRGGBB` colour and the
  constant `pixel` head and tail types);
- the request server: the status decision of `HandleRequest` with
  `ParseGameState` and `ReplyJson`, the constructor's null check and
  idempotent `Dispose`.

C# `int` is modelled as `Numerics.Int32` with explicit two's-complement
wrap-around (`Numerics.Wrap`) wherever the source does unchecked arithmetic:
`Coord`'s `+`, `Advanced` and `GetHashCode`. A null reference is
`Results.Option`, a value of static type `object` is `Results.Object`, and an
exception is a `Result` error or an `Exit` of the request's `try` block.

`GrowthLeft` is modelled twice. `Snakes.TrailingRun` is a recursive
reference definition: the length of the run of tail copies at the end of
the body, not counting the tail entry itself. `Snakes.GrowthLeft` is the
source's backward scan, written as a loop, and is proved equal to it.

Each request is abstracted to three inputs:

- its path;
- a `RequestBody`, the outcome of reading and deserializing the body: a
  game state, a failure, or null;
- a `Controller`, three callbacks that each either return a value or throw.

`Servers.HandleRequest` returns the response it leaves behind and which
callback, if any, it called. The response holds the status, the content
type, the declared content length and the bytes written.

Three points about the code itself:
- `MissingMemberHandling.Error` (`Service/Server.cs:79`) rejects extra JSON
  members as well as missing ones. Parsing is abstract here, so this is not
  modelled.
- A throwing controller leaves the status 503 set at `Service/Server.cs:91`;
  the model keeps that exact code.
- `operator==` (`ApiModel/Game.cs:29-35`) is meant to be null-safe but never
  returns (see Findings). The model uses the evidently intended definition.

## Model

| member | source | states |
|---|---|---|
| Numerics.Wrap | src/StarterSnake/ApiModel/Coord.cs:19-21 | unchecked `int` arithmetic: in-range values are kept, one past either end wraps to the other end, and the result is congruent to the exact value modulo 2^32 |
| Coords.Add | src/StarterSnake/ApiModel/Coord.cs:19-21 | `operator+` adds component-wise, exactly when the sum fits in 32 bits and modulo 2^32 otherwise |
| Coords.Advanced | src/StarterSnake/ApiModel/Coord.cs:23-36 | one step changes only the component along the direction; when in range it is exactly (x, y-1), (x+1, y), (x, y+1), (x-1, y) for North, East, South, West, at Manhattan distance 1 |
| Coords.AdvancedIsAddUnit | src/StarterSnake/ApiModel/Coord.cs:19-32 | `c.Advanced(d)` equals `c + unit(d)` for every point, wrap-around included |
| Coords.AdvancedOppositeRoundTrip | src/StarterSnake/ApiModel/Coord.cs:23-32 | a step followed by a step in the opposite direction returns to the starting point, for all points and directions |
| Directions.OppositeInvolutive | src/StarterSnake/ApiModel/Coord.cs:23-32 | the opposite of the opposite direction is the direction itself, so the step round trip holds starting from either direction |
| Coords.Equals | src/StarterSnake/ApiModel/Coord.cs:47-53 | `Equals(Coord)` and `==` hold exactly when the two points are the same value |
| Coords.NotEquals | src/StarterSnake/ApiModel/Coord.cs:55-57 | `!=` is the exact negation of `==` |
| Coords.EqualsObject | src/StarterSnake/ApiModel/Coord.cs:39-45 | `Equals(object)` holds only for a boxed Coord equal to the receiver; null and other types give false |
| Coords.HashCode | src/StarterSnake/ApiModel/Coord.cs:60-62 | the hash is `X*113+Y` modulo 2^32 |
| Coords.EqualCoordsHashEqual | src/StarterSnake/ApiModel/Coord.cs:47-62 | equal points have equal hashes |
| Coords.HashInjectiveOnSmallBoards | src/StarterSnake/ApiModel/Coord.cs:60-62 | with 0 <= y < 113 and 0 <= x < 2^24, distinct points never share a hash |
| Snakes.Head | src/StarterSnake/ApiModel/Snake.cs:41-43 | on a non-empty body, the head is a body part, the one at index 0 |
| Snakes.Tail | src/StarterSnake/ApiModel/Snake.cs:49-51 | on a non-empty body, the tail is a body part, the one at the last index |
| Snakes.FullyStackedHeadIsTail | src/StarterSnake/ApiModel/Snake.cs:31-51 | a snake whose effective length is 1 has its head on its tail cell |
| Snakes.TrailingRun | src/StarterSnake/ApiModel/Snake.cs:65-68 | reference definition of the run of tail copies; it never exceeds the length of the list it scans |
| Snakes.TrailingRunIsMaximalRun | src/StarterSnake/ApiModel/Snake.cs:62-71 | the reference count is k if and only if the last k entries equal the tail and the entry before them, if any, differs |
| Snakes.GrowthLeft | src/StarterSnake/ApiModel/Snake.cs:57-72 | the backward scan from index len-2 returns the reference count, which is within 0..len-1; every scanned entry equals the tail, and the entry where the scan stopped (index len-2-result, when it exists) does not |
| Snakes.EffectiveLength | src/StarterSnake/ApiModel/Snake.cs:31-35 | effective length plus growth left is the body length, so it lies in 1..len |
| Snakes.NoGrowthWithoutDuplicateTail | src/StarterSnake/ApiModel/Snake.cs:62-71 | a one-part body, or one whose second-to-last part differs from the tail, has no growth left and full effective length |
| Snakes.GrowthZeroIff | src/StarterSnake/ApiModel/Snake.cs:62-71 | growth left is zero exactly in those two cases |
| Snakes.AllSameBody | src/StarterSnake/ApiModel/Snake.cs:57-72 | a body of n identical parts has n-1 growth left and effective length 1 |
| Snakes.ThreeStackedParts | src/StarterSnake/ApiModel/Snake.cs:31-35 | the body [(5,5),(5,5),(5,5)] has growth left 2 and effective length 1 |
| Boards.OnBoardXY | src/StarterSnake/ApiModel/Board.cs:19-21 | `OnBoard(x, y)` holds iff 0 <= x < Width and 0 <= y < Height, so never on a board without width or height |
| Boards.OnBoard | src/StarterSnake/ApiModel/Board.cs:15-17 | `OnBoard(c)` is `OnBoard(c.X, c.Y)`, the same half-open test |
| Boards.FarCornerOnBoard | src/StarterSnake/ApiModel/Board.cs:20 | on a board with positive width and height, (Width-1, Height-1) and (0, 0) are on the board |
| Boards.JustOutsideIsOffBoard | src/StarterSnake/ApiModel/Board.cs:20 | (Width, y), (x, Height), (-1, y) and (x, -1) are never on the board |
| Boards.DegenerateBoardIsEmpty | src/StarterSnake/ApiModel/Board.cs:20 | with Width <= 0 or Height <= 0 no point is on the board |
| Boards.StepStaysOnBoard | src/StarterSnake/ApiModel/Board.cs:15-21 | from a cell on the board, `Advanced(d)` stays on the board exactly when the cell is not on the border on side d |
| Games.EqualsGame | src/StarterSnake/ApiModel/Game.cs:25-27 | the corrected `Equals(Game)` (see Findings): false against null, otherwise holds iff the ids are equal |
| Games.EqualsObject | src/StarterSnake/ApiModel/Game.cs:17-23 | the corrected `Equals(object)` (see Findings): false for null and for anything that is not a Game, otherwise it compares ids |
| Games.EqualsObjectAsWrittenOverflows | src/StarterSnake/ApiModel/Game.cs:17-23 | the written `Equals(object)` never returns on a Game argument, because it calls the written `Equals(Game)` |
| Games.Eq | src/StarterSnake/ApiModel/Game.cs:29-35 | `==` as intended: two nulls are equal, null and a game are not, two games are equal iff their ids are |
| Games.Ne | src/StarterSnake/ApiModel/Game.cs:37-39 | `!=` is the exact negation of `==` |
| Games.EqIsEquivalence | src/StarterSnake/ApiModel/Game.cs:25-35 | `==` is reflexive, symmetric and transitive on possibly-null games |
| Games.HashCode | src/StarterSnake/ApiModel/Game.cs:42-44 | the hash is the runtime's string hash of `ID` and of nothing else |
| Games.EqualGamesHashEqual | src/StarterSnake/ApiModel/Game.cs:42-44 | games equal under `==` have equal hashes, for any string hash |
| Games.EqAsWrittenOverflows | src/StarterSnake/ApiModel/Game.cs:29-35 | the written `operator==` exhausts every call-depth bound on every pair of operands: it never returns |
| Games.EqualsGameAsWrittenOverflows | src/StarterSnake/ApiModel/Game.cs:25-27 | the written `Equals(Game)` never returns either, because its `other != null` goes through `operator==` |
| ResponseMoves.FormatDirection | src/StarterSnake/Service/ResponseMove.cs:22-35 | the token is always one of "up", "right", "down", "left" |
| ResponseMoves.ParseDirection | src/StarterSnake/Service/ResponseMove.cs:22-31 | the decoder accepts exactly the four tokens |
| ResponseMoves.DirectionRoundTrip | src/StarterSnake/Service/ResponseMove.cs:22-31 | decoding the token of d gives d, which pins down North to "up", East to "right", South to "down" and West to "left" |
| ResponseMoves.ParseDirectionInverse | src/StarterSnake/Service/ResponseMove.cs:22-31 | every accepted token is the format of the direction it decodes to |
| ResponseMoves.FormatDirectionInjective | src/StarterSnake/Service/ResponseMove.cs:24-31 | two directions have the same token iff they are the same direction |
| ResponseMoves.NewResponseMove | src/StarterSnake/Service/ResponseMove.cs:15-17 | the reply's move field is the token of d and decodes back to d |
| ResponseStarts.HexDigit | src/StarterSnake/Service/ResponseStart.cs:20 | a value below 16 becomes an upper-case hex digit that reads back as that value |
| ResponseStarts.ParseHexDigit | src/StarterSnake/Service/ResponseStart.cs:20 | the digit reader accepts exactly 0-9 and A-F, with values below 16 |
| ResponseStarts.Hex2 | src/StarterSnake/Service/ResponseStart.cs:20 | `X2` of a byte is two upper-case hex digits, zero-padded below 16, that read back as the byte |
| ResponseStarts.ParseHex2Inverse | src/StarterSnake/Service/ResponseStart.cs:20 | every two-digit text that reads as a byte is that byte's `X2` text |
| ResponseStarts.FormatColor | src/StarterSnake/Service/ResponseStart.cs:20 | the colour is 7 characters, a '#' and six upper-case hex digits, two per channel in R, G, B order |
| ResponseStarts.ColorRoundTrip | src/StarterSnake/Service/ResponseStart.cs:20 | reading the colour text recovers R, G and B exactly |
| ResponseStarts.ParseColorInverse | src/StarterSnake/Service/ResponseStart.cs:20 | every text that reads as a colour is the format of that colour, whatever its alpha |
| ResponseStarts.FormatColorInjectiveOnRgb | src/StarterSnake/Service/ResponseStart.cs:20 | two colours format alike iff their R, G and B agree; alpha is not encoded |
| ResponseStarts.NewResponseStart | src/StarterSnake/Service/ResponseStart.cs:13-21 | the head and tail types are "pixel" whatever the colour, and the colour text reads back as the colour's channels |
| Utf8.EncodeChar | src/StarterSnake/Service/Server.cs:164 | a character encodes to one to four bytes, to exactly one (its own code) iff it is ASCII |
| Utf8.Encode | src/StarterSnake/Service/Server.cs:164 | a text of n characters encodes to between n and 4n bytes |
| Utf8.EncodeAscii | src/StarterSnake/Service/Server.cs:164 | ASCII text encodes to one byte per character, the character's code |
| Servers.MoveJson | src/StarterSnake/Service/Server.cs:104 | the serialized move reply is the move token framed by `{"move":"` and `"}` |
| Servers.StartJson | src/StarterSnake/Service/Server.cs:100 | the serialized start reply is the colour, head type and tail type in the `color`, `headtype`, `tailtype` members, in that order |
| Servers.MoveJsonRoundTrip | src/StarterSnake/Service/Server.cs:104 | the serialized move reply is ASCII, and the direction reads back out of it |
| Servers.StartJsonRoundTrip | src/StarterSnake/Service/Server.cs:100 | the serialized start reply is ASCII, and the colour's channels read back out of it |
| Servers.ParseGameState | src/StarterSnake/Service/Server.cs:138-156 | a parsed state is returned as is; a parse failure or a null result both end the request with status 400 |
| Servers.ReplyJson | src/StarterSnake/Service/Server.cs:161-167 | sets the status and the JSON content type, writes the UTF-8 bytes, and declares a content length equal to their count, which is the character count for ASCII text |
| Servers.HandleRequest | src/StarterSnake/Service/Server.cs:88-121 | `/ping` gives an empty 200 without calling the controller; an unknown path gives 404 and a bad or null body 400, with no content type and nothing written, neither calling the controller; a parsed game request calls exactly its callback; a throwing callback leaves the initial 503 with nothing written; `/move` and `/start` give 200 with the JSON content type and a payload that decodes to the returned direction or colour, and `/end` an empty 200; the content length always matches the bytes written |
| Servers.SuccessIff | src/StarterSnake/Service/Server.cs:88-121 | the status is 200 iff the path is `/ping`, or a game path whose body parsed and whose callback returned |
| Servers.InvokedIff | src/StarterSnake/Service/Server.cs:96-112 | the controller is called iff the path is `/start`, `/move` or `/end` and the body parsed |
| Servers.NewServer | src/StarterSnake/Service/Server.cs:58-70 | a null controller throws `ArgumentNullException("controller")`; otherwise the new server listens on nothing yet, has the root prefix and is not disposed |
| Servers.DisposeCore | src/StarterSnake/Service/Server.cs:179-198 | the server ends disposed; a second call changes nothing; a finalizer call only sets the disposed flag; the listener is closed (and stopped, if listening) only by a manual call on an undisposed server; counters never decrease and the controller is kept |
| Servers.Dispose | src/StarterSnake/Service/Server.cs:173-177 | public `Dispose()` on an undisposed server closes the listener once and marks the server disposed |
| Servers.DisposeIdempotent | src/StarterSnake/Service/Server.cs:173-198 | disposing twice is the same as disposing once |
| Servers.DisposedIsFixed | src/StarterSnake/Service/Server.cs:181 | once disposed, any further disposals leave the server unchanged |
| Servers.ReleasedAtMostOnce | src/StarterSnake/Service/Server.cs:179-198 | over any sequence of manual and finalizer disposals of a fresh server, the listener is stopped and closed at most once, closed iff the first disposal is manual, and the server ends disposed iff any disposal ran |

## Left out

- HTTP and threading: `Run`'s `listener.Start()`, its accept loop and thread-pool dispatch, stream reading, the stream writes and `OutputStream.Close`. These are I/O and concurrency. The `listening` bit of a listener is an input to disposal instead.
- JSON deserialization: Newtonsoft, the contract resolver and the serializer settings. A request body is abstracted to a parse outcome: state, failure or null. The JSON text of the two replies is written out for their flat string fields only; no escaping is modelled, since no reply value needs it.
- Console logging of bad requests and uncaught exceptions.
- Finalizer and GC semantics (`~Server`, `GC.SuppressFinalize`). A finalizer run is a disposal with `manuallyDisposing` false.
- `StarterController` (a random move and a fixed colour), `Startup` (port lookup and bootstrap) and the `ISnakeServiceController` interface. These are modelled only as the abstract `Controller`.
- `ToString` of `Snake` and `Coord`: cosmetic text formatting.
- `Direction` is a C# enum modelled as a closed four-value datatype. Out-of-range values such as `(Direction)7` reach the `default` throws of `Advanced` and `FormatDirection`, and through `HandleRequest`'s generic catch they give a 503. None of this is modelled.
- Games.HashCode: the string hash of the runtime is a parameter, because .NET's `string.GetHashCode` is randomized per process.
- Snakes.Head: requires a non-empty body. The parser does not ensure one: `Required.Always` (`Service/Server.cs:25`) only demands that `body` be present and non-null, so `"body": []` parses and `Body[0]` (`ApiModel/Snake.cs:42`) throws later. A non-empty body is the game engine's guarantee on the wire.
- Snakes.Tail: requires a non-empty body for the same reason; `Body[Body.Count - 1]` (`ApiModel/Snake.cs:50`) throws on an empty one.
- Snakes.GrowthLeft: requires a non-empty body, because it reads `Tail` first (`ApiModel/Snake.cs:63`) and so throws on an empty one.
- Snakes.EffectiveLength: requires a non-empty body, because it calls `GrowthLeft` (`ApiModel/Snake.cs:33`) and so throws on an empty one.
- Servers.NewServer: accepts every root. `listener.Prefixes.Add(root)` (`Service/Server.cs:64`) throws `ArgumentException` for a root that is not an `http://` or `https://` prefix ending in `/`; the listener's prefix validation is not modelled.
- Snakes.GrowthLeft: also, the result is a `nat`, not a C# `int`. It is below the body's `List.Count`, so it cannot overflow.
- Utf8.EncodeChar: a lone UTF-16 surrogate, which .NET encodes as U+FFFD, cannot occur in a Dafny string and is not modelled; every reply is ASCII.
- A transport error while writing a reply can leave status 200 with a partly written body. This is not modelled.
- The finalizer-then-`Dispose()` order: after a finalizer disposal, a later `Dispose()` is a no-op and never closes the listener. The model states this, but the runtime never produces that order.

## Findings

| source | as written | input that shows it | evidently intended | confidence | as-written member | corrected member |
|---|---|---|---|---|---|---|
| src/StarterSnake/ApiModel/Game.cs:29-35 | inside `operator==(Game a, Game b)`, the test `a == null` resolves to the same user-defined operator, so it calls itself without end; `Equals(Game)` (line 26) tests `other != null`, which goes through `operator==` too, and `Equals(object)` on a Game (line 19) calls `Equals(Game)` | `a == b` for any two games, null or not; `game.Equals(other)` for any `other`, null included; `game.Equals((object)otherGame)` for any non-null `otherGame` | a reference test such as `a is null` or `ReferenceEquals(a, null)`, giving null-safe equality by `ID` | high, not executed | Games.EqAsWrittenOverflows | Games.Eq |

=== FILE: boards.dfy ===
/** `Board`: the per-turn snapshot of grid size, food and snakes, with the
    half-open bounds test `OnBoard`. */
module Boards {
  import opened Numerics
  import opened Directions
  import opened Coords
  import opened Snakes

  datatype Board = Board(width: Int32, height: Int32, food: seq<Coord>, snakes: seq<Snake>)

  /** `OnBoard(int, int)`: the cell lies in [0, Width) x [0, Height). */
  function OnBoardXY(b: Board, x: Int32, y: Int32): (r: bool)
    ensures r <==> 0 <= x < b.width && 0 <= y < b.height
    ensures r ==> b.width > 0 && b.height > 0
  {
    x >= 0 && y >= 0 && x < b.width && y < b.height
  }

  /** `OnBoard(Coord)`: the same test on the point's components. */
  function OnBoard(b: Board, c: Coord): (r: bool)
    ensures r <==> 0 <= c.x < b.width && 0 <= c.y < b.height
    ensures r == OnBoardXY(b, c.x, c.y)
  {
    OnBoardXY(b, c.x, c.y)
  }

  /** The far corner is a cell of every non-empty board. */
  lemma FarCornerOnBoard(b: Board)
    requires b.width > 0 && b.height > 0
    ensures OnBoardXY(b, b.width - 1, b.height - 1)
    ensures OnBoardXY(b, 0, 0)
  {
  }

  /** The lines just outside the board are never on it. */
  lemma JustOutsideIsOffBoard(b: Board, x: Int32, y: Int32)
    ensures !OnBoardXY(b, b.width, y) && !OnBoardXY(b, x, b.height)
    ensures !OnBoardXY(b, -1, y) && !OnBoardXY(b, x, -1)
  {
  }

  /** A board without width or height has no cells at all. */
  lemma DegenerateBoardIsEmpty(b: Board, c: Coord)
    requires b.width <= 0 || b.height <= 0
    ensures !OnBoard(b, c)
  {
  }

  /** True when c lies on the board's border on the side d points to. */
  predicate AtBorder(b: Board, c: Coord, d: Direction) {
    match d
    case North => c.y == 0
    case South => c.y == b.height - 1
    case East => c.x == b.width - 1
    case West => c.x == 0
  }

  /** From a cell of the board, one step towards d stays on the board
      exactly when c is not on the border on that side. */
  lemma StepStaysOnBoard(b: Board, c: Coord, d: Direction)
    requires OnBoard(b, c)
    ensures OnBoard(b, Advanced(c, d)) <==> !AtBorder(b, c, d)
  {
    assert StepInRange(c, d);
  }
}

=== FILE: coords.dfy ===
/** `Coord`: an immutable grid point of two C# `int`s with structural
    equality, a hash, component-wise `+` and the one-step move `Advanced`. */
module Coords {
  import opened Numerics
  import opened Results
  import opened Directions

  datatype Coord = Coord(x: Int32, y: Int32)

  function Abs(n: int): nat {
    if n < 0 then -n else n
  }

  /** Grid (taxicab) distance between two points. */
  function Manhattan(a: Coord, b: Coord): nat {
    Abs(a.x - b.x) + Abs(a.y - b.y)
  }

  /** The unit vector of a direction, as a coordinate. */
  function Unit(d: Direction): Coord {
    Coord(Dx(d), Dy(d))
  }

  /** True when one exact step from c towards d stays inside the 32-bit range. */
  predicate StepInRange(c: Coord, d: Direction) {
    MinInt32 <= c.x + Dx(d) <= MaxInt32 && MinInt32 <= c.y + Dy(d) <= MaxInt32
  }

  /** `operator+`: component-wise sum; each component wraps around like
      unchecked C# `int` addition. */
  function Add(a: Coord, b: Coord): (r: Coord)
    ensures MinInt32 <= a.x + b.x <= MaxInt32 ==> r.x == a.x + b.x
    ensures MinInt32 <= a.y + b.y <= MaxInt32 ==> r.y == a.y + b.y
    ensures (a.x + b.x - r.x) % TwoTo32 == 0 && (a.y + b.y - r.y) % TwoTo32 == 0
  {
    Coord(Wrap(a.x + b.x), Wrap(a.y + b.y))
  }

  /** `Advanced(d)`: the neighbouring point one step towards d. The source's
      `default` branch (an out-of-range enum value) cannot arise: Direction
      has exactly four values. */
  function Advanced(c: Coord, d: Direction): (r: Coord)
    ensures StepInRange(c, d) ==> r.x == c.x + Dx(d) && r.y == c.y + Dy(d)
    ensures StepInRange(c, d) ==> Manhattan(c, r) == 1
    ensures Dx(d) == 0 ==> r.x == c.x
    ensures Dy(d) == 0 ==> r.y == c.y
  {
    match d
    case North => Coord(c.x, Wrap(c.y - 1))
    case East => Coord(Wrap(c.x + 1), c.y)
    case South => Coord(c.x, Wrap(c.y + 1))
    case West => Coord(Wrap(c.x - 1), c.y)
  }

  /** Advancing is adding the direction's unit vector, wrap-around included. */
  lemma AdvancedIsAddUnit(c: Coord, d: Direction)
    ensures Advanced(c, d) == Add(c, Unit(d))
  {
  }

  /** Stepping forward and then back returns to the start, for every point
      (a step that wrapped past the 32-bit edge wraps back). */
  lemma AdvancedOppositeRoundTrip(c: Coord, d: Direction)
    ensures Advanced(Advanced(c, d), Opposite(d)) == c
  {
  }

  /** `Equals(Coord)`, `operator==`: structural equality. */
  function Equals(a: Coord, b: Coord): (r: bool)
    ensures r <==> a == b
  {
    a.x == b.x && a.y == b.y
  }

  /** `operator!=`: the negation of `Equals`. */
  function NotEquals(a: Coord, b: Coord): (r: bool)
    ensures r <==> a != b
    ensures r != Equals(a, b)
  {
    !Equals(a, b)
  }

  /** `Equals(object)`: true only for a boxed Coord equal to a. */
  function EqualsObject(a: Coord, other: Object<Coord>): (r: bool)
    ensures r <==> other == OfType(a)
  {
    match other
    case OfType(p) => Equals(a, p)
    case _ => false
  }

  /** `GetHashCode`: `X * 113 + Y` in unchecked 32-bit arithmetic. */
  function HashCode(c: Coord): (r: Int32)
    ensures (c.x * 113 + c.y - r) % TwoTo32 == 0
  {
    Wrap(c.x * 113 + c.y)
  }

  /** Equal coordinates hash equally, as `GetHashCode` must with `Equals`. */
  lemma EqualCoordsHashEqual(a: Coord, b: Coord)
    requires Equals(a, b)
    ensures HashCode(a) == HashCode(b)
  {
  }

  /** On boards up to 113 rows high (and fewer than 2^24 columns) the hash
      does not collide: distinct points hash differently. */
  lemma HashInjectiveOnSmallBoards(a: Coord, b: Coord)
    requires 0 <= a.x < 0x100_0000 && 0 <= b.x < 0x100_0000
    requires 0 <= a.y < 113 && 0 <= b.y < 113
    ensures HashCode(a) == HashCode(b) ==> a == b
  {
    assert a.x * 113 <= 0xFF_FFFF * 113;
    assert b.x * 113 <= 0xFF_FFFF * 113;
    if a.x < b.x {
      assert (a.x + 1) * 113 <= b.x * 113;
    } else if b.x < a.x {
      assert (b.x + 1) * 113 <= a.x * 113;
    }
  }
}

=== FILE: directions.dfy ===
/** The four compass directions a snake can move in. The board origin is the
    top-left corner: North decreases y and South increases it. */
module Directions {
  datatype Direction = North | East | South | West

  /** x component of the unit step towards d. */
  function Dx(d: Direction): int {
    match d
    case East => 1
    case West => -1
    case _ => 0
  }

  /** y component of the unit step towards d (y grows downward). */
  function Dy(d: Direction): int {
    match d
    case South => 1
    case North => -1
    case _ => 0
  }

  /** The direction pointing back the way d came. */
  function Opposite(d: Direction): (r: Direction)
    ensures r != d
    ensures Dx(r) == -Dx(d) && Dy(r) == -Dy(d)
  {
    match d
    case North => South
    case South => North
    case East => West
    case West => East
  }

  /** Turning round twice faces the original way. */
  lemma OppositeInvolutive(d: Direction)
    ensures Opposite(Opposite(d)) == d
  {
  }
}

=== FILE: games.dfy ===
/** `Game`: the game instance, identified by its `ID`. References to it may
    be null, so a `Game` variable of the source is an Option<Game> here. */
module Games {
  import opened Numerics
  import opened Results

  datatype Game = Game(id: string)

  /** `Equals(Game)` as intended: false against null, otherwise compares the
      ids. The written one never returns, see `EqualsGameAsWritten`. */
  function EqualsGame(g: Game, other: Option<Game>): (r: bool)
    ensures other.None? ==> !r
    ensures other.Some? ==> (r <==> g.id == other.value.id)
  {
    match other
    case None => false
    case Some(o) => g.id == o.id
  }

  /** `Equals(object)` as intended: false for null and for anything that is
      not a Game. The written one never returns on a Game, see
      `EqualsObjectAsWritten`. */
  function EqualsObject(g: Game, other: Object<Game>): (r: bool)
    ensures !other.OfType? ==> !r
    ensures other.OfType? ==> (r <==> g.id == other.value.id)
  {
    match other
    case OfType(o) => EqualsGame(g, Some(o))
    case _ => false
  }

  /** `operator==` as intended: two nulls are equal, null and a game are
      not, and two games are equal when their ids are. */
  function Eq(a: Option<Game>, b: Option<Game>): (r: bool)
    ensures a.None? && b.None? ==> r
    ensures a.None? != b.None? ==> !r
    ensures a.Some? && b.Some? ==> (r <==> a.value.id == b.value.id)
  {
    match a
    case None => b.None?
    case Some(g) => EqualsGame(g, b)
  }

  /** `operator!=`: the exact negation of `==`. */
  function Ne(a: Option<Game>, b: Option<Game>): (r: bool)
    ensures r <==> !Eq(a, b)
    ensures a.Some? && b.Some? ==> (r <==> a.value.id != b.value.id)
  {
    !Eq(a, b)
  }

  /** `==` is an equivalence relation on possibly-null games. */
  lemma EqIsEquivalence(a: Option<Game>, b: Option<Game>, c: Option<Game>)
    ensures Eq(a, a)
    ensures Eq(a, b) == Eq(b, a)
    ensures Eq(a, b) && Eq(b, c) ==> Eq(a, c)
  {
  }

  /** `GetHashCode`: the hash of the id, for whatever string hash the runtime
      uses. */
  function HashCode(g: Game, stringHash: string -> Int32): (r: Int32)
    ensures r == stringHash(g.id)
  {
    stringHash(g.id)
  }

  /** Games equal under `==` hash equally, for every string hash. */
  lemma EqualGamesHashEqual(a: Game, b: Game, stringHash: string -> Int32)
    requires Eq(Some(a), Some(b))
    ensures HashCode(a, stringHash) == HashCode(b, stringHash)
  {
  }

  // The operators exactly as written. Inside `operator==(Game a, Game b)`
  // the test `a == null` resolves to that same user-defined operator, and
  // `Equals(Game)` tests `other != null`, which calls `operator!=` and so
  // `operator==` again. The functions below evaluate that code with a bound
  // on the call depth; StackOverflow means the bound was exhausted.

  datatype Eval = StackOverflow | NullDereference | Value(b: bool)

  /** `operator==` as written, within `depth` nested calls. */
  function EqAsWritten(a: Option<Game>, b: Option<Game>, depth: nat): Eval
    decreases depth
  {
    if depth == 0 then StackOverflow
    else
      match EqAsWritten(a, None, depth - 1)
      case Value(aIsNull) =>
        if aIsNull then EqAsWritten(b, None, depth - 1)
        else if a.None? then NullDereference
        else EqualsGameAsWritten(a.value, b, depth - 1)
      case failed => failed
  }

  /** `operator!=` as written, within `depth` nested calls. */
  function NeAsWritten(a: Option<Game>, b: Option<Game>, depth: nat): Eval
    decreases depth
  {
    if depth == 0 then StackOverflow
    else
      match EqAsWritten(a, b, depth - 1)
      case Value(v) => Value(!v)
      case failed => failed
  }

  /** `Equals(Game)` as written, within `depth` nested calls. */
  function EqualsGameAsWritten(g: Game, other: Option<Game>, depth: nat): Eval
    decreases depth
  {
    if depth == 0 then StackOverflow
    else
      match NeAsWritten(other, None, depth - 1)
      case Value(notNull) =>
        if !notNull then Value(false)
        else if other.None? then NullDereference
        else Value(g.id == other.value.id)
      case failed => failed
  }

  /** `Equals(object)` as written, within `depth` nested calls: a Game
      argument is passed on to the written `Equals(Game)`. */
  function EqualsObjectAsWritten(g: Game, other: Object<Game>, depth: nat): Eval
  {
    if depth == 0 then StackOverflow
    else
      match other
      case OfType(o) => EqualsGameAsWritten(g, Some(o), depth - 1)
      case _ => Value(false)
  }

  /** The written `operator==` never returns: at every call depth the
      evaluation runs out of stack, whatever the operands (null included). */
  lemma {:induction false} EqAsWrittenOverflows(a: Option<Game>, b: Option<Game>, depth: nat)
    ensures EqAsWritten(a, b, depth) == StackOverflow
    decreases depth
  {
    if depth > 0 {
      EqAsWrittenOverflows(a, None, depth - 1);
    }
  }

  /** Hence neither does the written `Equals(Game)`, even on a non-null game. */
  lemma EqualsGameAsWrittenOverflows(g: Game, other: Option<Game>, depth: nat)
    ensures EqualsGameAsWritten(g, other, depth) == StackOverflow
  {
    if depth > 1 {
      EqAsWrittenOverflows(other, None, depth - 2);
    }
  }

  /** The written `Equals(object)` never returns on a Game argument: it
      reaches the written `Equals(Game)`. */
  lemma EqualsObjectAsWrittenOverflows(g: Game, o: Game, depth: nat)
    ensures EqualsObjectAsWritten(g, OfType(o), depth) == StackOverflow
  {
    if depth > 0 {
      EqualsGameAsWrittenOverflows(g, Some(o), depth - 1);
    }
  }
}

=== FILE: gamestate.dfy ===
/** `GameState`: everything one request carries — the game, the turn
    number, the board snapshot and the calling snake. Every field is
    mandatory, so none of them is optional here. */
module GameStates {
  import opened Numerics
  import opened Games
  import opened Boards
  import opened Snakes

  datatype GameState = GameState(game: Game, turn: Int32, board: Board, you: Snake)
}

=== FILE: numerics.dfy ===
/** The fixed-width integers of the C# source: the 32-bit `int`, whose
    arithmetic is unchecked (it wraps around), and the 8-bit `byte`. */
module Numerics {
  const MinInt32: int := -0x8000_0000
  const MaxInt32: int := 0x7FFF_FFFF
  const TwoTo32: int := 0x1_0000_0000

  type Int32 = x: int | MinInt32 <= x <= MaxInt32
  type Byte = x: int | 0 <= x < 256

  /** Unchecked C# `int` arithmetic: the exact result reduced into the
      two's-complement range, i.e. the unique Int32 congruent to it. */
  function Wrap(v: int): (r: Int32)
    ensures MinInt32 <= v <= MaxInt32 ==> r == v
    ensures v == MaxInt32 + 1 ==> r == MinInt32
    ensures v == MinInt32 - 1 ==> r == MaxInt32
    ensures (v - r) % TwoTo32 == 0
  {
    (v - MinInt32) % TwoTo32 + MinInt32
  }
}

/** Option and Result stand for the source's null references and thrown
    exceptions; Object<T> is a value of static type `object` as seen by an
    `is T` test. */
module Results {
  datatype Option<+T> = None | Some(value: T)

  datatype Result<+T, +E> = Ok(value: T) | Err(error: E)

  /** A reference of static type `object`: null, an instance of T, or an
      instance of some other type. */
  datatype Object<+T> = NullRef | OfType(value: T) | OfOtherType
}

=== FILE: responses.dfy ===
/** `ResponseMove`: the reply to a move request, the direction as one of
    the wire tokens "up", "right", "down", "left". */
module ResponseMoves {
  import opened Results
  import opened Directions

  datatype ResponseMove = ResponseMove(move: string)

  /** `FormatDirection`: North, East, South, West become "up", "right",
      "down", "left". The source's `default` branch cannot arise. */
  function FormatDirection(d: Direction): (r: string)
    ensures r in {"up", "right", "down", "left"}
  {
    match d
    case North => "up"
    case East => "right"
    case South => "down"
    case West => "left"
  }

  /** The inverse reading of a wire token; None for anything else. */
  function ParseDirection(token: string): (r: Option<Direction>)
    ensures r.Some? <==> token in {"up", "right", "down", "left"}
  {
    if token == "up" then Some(North)
    else if token == "right" then Some(East)
    else if token == "down" then Some(South)
    else if token == "left" then Some(West)
    else None
  }

  /** Reading a formatted direction gives it back. */
  lemma DirectionRoundTrip(d: Direction)
    ensures ParseDirection(FormatDirection(d)) == Some(d)
  {
  }

  /** Every token that reads as a direction is that direction's format. */
  lemma ParseDirectionInverse(token: string)
    requires ParseDirection(token).Some?
    ensures FormatDirection(ParseDirection(token).value) == token
  {
  }

  /** Distinct directions have distinct tokens. */
  lemma FormatDirectionInjective(d1: Direction, d2: Direction)
    ensures FormatDirection(d1) == FormatDirection(d2) <==> d1 == d2
  {
    DirectionRoundTrip(d1);
    DirectionRoundTrip(d2);
  }

  /** The `ResponseMove(Direction)` constructor: the move field holds the
      token of d, and reading the token back gives d. */
  function NewResponseMove(d: Direction): (r: ResponseMove)
    ensures r.move == FormatDirection(d)
    ensures ParseDirection(r.move) == Some(d)
  {
    DirectionRoundTrip(d);
    ResponseMove(FormatDirection(d))
  }
}

/** `ResponseStart`: the reply to a start request — the snake's colour as
    `#RRGGBB` with two upper-case hex digits per channel, and the constant
    head and tail types "pixel". */
module ResponseStarts {
  import opened Numerics
  import opened Results

  /** A `System.Drawing.Color`: alpha and the three colour channels. */
  datatype Color = Color(a: Byte, r: Byte, g: Byte, b: Byte)

  /** The colour channels alone, which is what the wire format keeps. */
  datatype Rgb = Rgb(r: Byte, g: Byte, b: Byte)

  datatype ResponseStart = ResponseStart(color: string, headType: string, tailType: string)

  predicate IsUpperHexDigit(ch: char) {
    '0' <= ch <= '9' || 'A' <= ch <= 'F'
  }

  /** The upper-case hex digit of a value below 16. */
  function HexDigit(n: int): (ch: char)
    requires 0 <= n < 16
    ensures IsUpperHexDigit(ch)
    ensures ParseHexDigit(ch) == Some(n)
  {
    if n < 10 then ('0' as int + n) as char else ('A' as int + n - 10) as char
  }

  /** The value of an upper-case hex digit; None for any other character. */
  function ParseHexDigit(ch: char): (r: Option<int>)
    ensures r.Some? <==> IsUpperHexDigit(ch)
    ensures r.Some? ==> 0 <= r.value < 16
  {
    if '0' <= ch <= '9' then Some(ch as int - '0' as int)
    else if 'A' <= ch <= 'F' then Some(ch as int - 'A' as int + 10)
    else None
  }

  /** The `X2` format of a byte: two upper-case hex digits, zero-padded. */
  function Hex2(v: Byte): (s: string)
    ensures |s| == 2 && IsUpperHexDigit(s[0]) && IsUpperHexDigit(s[1])
    ensures v < 16 ==> s[0] == '0'
    ensures ParseHex2(s) == Some(v)
  {
    [HexDigit(v / 16), HexDigit(v % 16)]
  }

  /** The byte written as two upper-case hex digits. */
  function ParseHex2(s: string): (r: Option<Byte>)
    requires |s| == 2
  {
    match (ParseHexDigit(s[0]), ParseHexDigit(s[1]))
    case (Some(hi), Some(lo)) => Some(hi * 16 + lo)
    case _ => None
  }

  /** A two-character string that reads as a byte is that byte's `X2` text. */
  lemma ParseHex2Inverse(s: string)
    requires |s| == 2 && ParseHex2(s).Some?
    ensures Hex2(ParseHex2(s).value) == s
  {
    var hi := ParseHexDigit(s[0]).value;
    var lo := ParseHexDigit(s[1]).value;
    var v := hi * 16 + lo;
    assert v / 16 == hi && v % 16 == lo;
    assert HexDigit(hi) == s[0] && HexDigit(lo) == s[1];
  }

  /** The colour format `#{R:X2}{G:X2}{B:X2}`; alpha is not written. */
  function FormatColor(c: Color): (s: string)
    ensures |s| == 7 && s[0] == '#'
    ensures forall i :: 1 <= i < 7 ==> IsUpperHexDigit(s[i])
    ensures s[1..3] == Hex2(c.r) && s[3..5] == Hex2(c.g) && s[5..7] == Hex2(c.b)
  {
    "#" + Hex2(c.r) + Hex2(c.g) + Hex2(c.b)
  }

  /** Reads `#RRGGBB` with upper-case digits back into its channels. */
  function ParseColor(s: string): Option<Rgb> {
    if |s| != 7 || s[0] != '#' then None
    else
      match (ParseHex2(s[1..3]), ParseHex2(s[3..5]), ParseHex2(s[5..7]))
      case (Some(r), Some(g), Some(b)) => Some(Rgb(r, g, b))
      case _ => None
  }

  /** Reading a formatted colour recovers exactly its three channels. */
  lemma ColorRoundTrip(c: Color)
    ensures ParseColor(FormatColor(c)) == Some(Rgb(c.r, c.g, c.b))
  {
    var s := FormatColor(c);
    assert s[1..3] == Hex2(c.r) && s[3..5] == Hex2(c.g) && s[5..7] == Hex2(c.b);
  }

  /** Every string that reads as a colour is the format of that colour,
      whatever its alpha. */
  lemma ParseColorInverse(s: string, alpha: Byte)
    requires ParseColor(s).Some?
    ensures var rgb := ParseColor(s).value; FormatColor(Color(alpha, rgb.r, rgb.g, rgb.b)) == s
  {
    var rgb := ParseColor(s).value;
    ParseHex2Inverse(s[1..3]);
    ParseHex2Inverse(s[3..5]);
    ParseHex2Inverse(s[5..7]);
    var f := FormatColor(Color(alpha, rgb.r, rgb.g, rgb.b));
    assert f[1..3] == s[1..3] && f[3..5] == s[3..5] && f[5..7] == s[5..7];
    assert f[0] == s[0];
    assert forall i :: 0 <= i < 7 ==> f[i] == s[i] by {
      forall i | 0 <= i < 7
        ensures f[i] == s[i]
      {
        if 1 <= i < 3 {
          assert f[i] == f[1..3][i - 1] && s[i] == s[1..3][i - 1];
        } else if 3 <= i < 5 {
          assert f[i] == f[3..5][i - 3] && s[i] == s[3..5][i - 3];
        } else if 5 <= i < 7 {
          assert f[i] == f[5..7][i - 5] && s[i] == s[5..7][i - 5];
        }
      }
    }
  }

  /** Two colours format alike exactly when their channels agree. */
  lemma FormatColorInjectiveOnRgb(c1: Color, c2: Color)
    ensures FormatColor(c1) == FormatColor(c2) <==> (c1.r == c2.r && c1.g == c2.g && c1.b == c2.b)
  {
    ColorRoundTrip(c1);
    ColorRoundTrip(c2);
  }

  /** The `ResponseStart(Color)` constructor: the formatted colour, with
      "pixel" head and tail whatever the colour. */
  function NewResponseStart(c: Color): (r: ResponseStart)
    ensures r.headType == "pixel" && r.tailType == "pixel"
    ensures ParseColor(r.color) == Some(Rgb(c.r, c.g, c.b))
  {
    ColorRoundTrip(c);
    ResponseStart(FormatColor(c), "pixel", "pixel")
  }
}

=== FILE: server.dfy ===
/** `Server`: the request handler's status decision, the JSON replies it
    writes, the constructor's null check and idempotent disposal. The HTTP
    listener, the thread pool and the JSON parser are abstracted: a request
    is its path plus the outcome of parsing its body, and the controller is
    three callbacks that either return or throw. */
module Servers {
  import opened Numerics
  import opened Results
  import opened Directions
  import opened GameStates
  import opened ResponseMoves
  import opened ResponseStarts
  import Utf8

  const StatusOk := 200
  const StatusBadRequest := 400
  const StatusNotFound := 404
  const StatusServiceUnavailable := 503

  /** What a call into the controller did: returned a value or threw. */
  datatype Call<+T> = Returns(value: T) | Throws

  /** An `ISnakeServiceController`: the start, move and end callbacks. */
  datatype Controller = Controller(
    start: GameState -> Call<Color>,
    move: GameState -> Call<Direction>,
    end: GameState -> Call<()>)

  datatype Operation = StartOp | MoveOp | EndOp

  /** What reading and deserializing a request body produced: a game state,
      an error (bad JSON, a missing member, a read failure), or null (an
      empty body). */
  datatype RequestBody = Parsed(state: GameState) | Malformed | ParsedNull

  /** How the `try` block of `HandleRequest` ended. */
  datatype Exit = Completed | StopServing(statusCode: int) | Uncaught

  /** The HTTP response as far as the handler sets it; `contentLength` is
      None while `ContentLength64` has not been set. */
  datatype Response = Response(
    statusCode: int,
    contentType: Option<string>,
    contentLength: Option<nat>,
    content: seq<Byte>)

  /** What the `try` block leaves behind. */
  datatype Step = Step(response: Response, invoked: Option<Operation>, exit: Exit)

  /** The outcome of handling one request: the response sent and which
      controller callback, if any, was called. */
  datatype Handled = Handled(response: Response, invoked: Option<Operation>)

  /** The declared content length agrees with the bytes written. */
  predicate WellFormed(r: Response) {
    && (r.contentLength.Some? ==> r.contentLength.value == |r.content|)
    && (r.contentLength.None? ==> r.content == [])
  }

  predicate IsGameRoute(path: string) {
    path == "/start" || path == "/move" || path == "/end"
  }

  predicate IsRoute(path: string) {
    path == "/ping" || IsGameRoute(path)
  }

  function OperationOf(path: string): Operation
    requires IsGameRoute(path)
  {
    if path == "/start" then StartOp else if path == "/move" then MoveOp else EndOp
  }

  /** Whether the controller callback for op returns on state. */
  predicate CallReturns(ctrl: Controller, op: Operation, state: GameState) {
    match op
    case StartOp => ctrl.start(state).Returns?
    case MoveOp => ctrl.move(state).Returns?
    case EndOp => ctrl.end(state).Returns?
  }

  /** The JSON text `JsonConvert.SerializeObject` writes for a move reply. */
  function MoveJson(m: ResponseMove): (json: string)
    ensures |json| == |m.move| + 11
    ensures json[..9] == "{\"move\":\"" && json[9..|json| - 2] == m.move && json[|json| - 2..] == "\"}"
  {
    "{\"move\":\"" + m.move + "\"}"
  }

  const ColorPrefix: string := "{\"color\":\""
  const ColorSuffix: string := "\",\"headtype\":\"pixel\",\"tailtype\":\"pixel\"}"

  /** The JSON text `JsonConvert.SerializeObject` writes for a start reply. */
  function StartJson(s: ResponseStart): (json: string)
    ensures |json| == |ColorPrefix| + |s.color| + |s.headType| + |s.tailType| + 30
    ensures var c := |ColorPrefix| + |s.color|;
      && json[..|ColorPrefix|] == ColorPrefix
      && json[|ColorPrefix|..c] == s.color
      && json[c..c + 14] == "\",\"headtype\":\""
      && json[c + 14..c + 14 + |s.headType|] == s.headType
      && json[c + 14 + |s.headType|..c + 28 + |s.headType|] == "\",\"tailtype\":\""
      && json[c + 28 + |s.headType|..|json| - 2] == s.tailType
      && json[|json| - 2..] == "\"}"
  {
    ColorPrefix + s.color + "\",\"headtype\":\"" + s.headType + "\",\"tailtype\":\"" + s.tailType + "\"}"
  }

  /** Reads the direction back out of a move reply. */
  function ReadMoveJson(json: string): Option<Direction> {
    if |json| < 11 || json[..9] != "{\"move\":\"" || json[|json| - 2..] != "\"}" then None
    else ParseDirection(json[9..|json| - 2])
  }

  /** Reads the colour back out of a start reply with the default head and
      tail types. */
  function ReadStartJson(json: string): Option<Rgb> {
    if |json| != |ColorPrefix| + 7 + |ColorSuffix|
      || json[..|ColorPrefix|] != ColorPrefix
      || json[|ColorPrefix| + 7..] != ColorSuffix
    then None
    else ParseColor(json[|ColorPrefix|..|ColorPrefix| + 7])
  }

  /** A move reply is ASCII text from which its direction reads back. */
  lemma MoveJsonRoundTrip(d: Direction)
    ensures Utf8.IsAscii(MoveJson(NewResponseMove(d)))
    ensures ReadMoveJson(MoveJson(NewResponseMove(d))) == Some(d)
  {
    var json := MoveJson(NewResponseMove(d));
    var token := FormatDirection(d);
    assert json[9..|json| - 2] == token;
    assert json[..9] == "{\"move\":\"";
    assert json[|json| - 2..] == "\"}";
    DirectionRoundTrip(d);
  }

  /** The start reply is the colour between a fixed prefix and suffix. */
  lemma StartJsonShape(rs: ResponseStart)
    requires rs.headType == "pixel" && rs.tailType == "pixel"
    ensures StartJson(rs) == ColorPrefix + rs.color + ColorSuffix
  {
  }

  /** Reading a start reply framed around any 7-character colour text
      reads that text. */
  lemma ReadFramedColor(color: string)
    requires |color| == 7
    ensures ReadStartJson(ColorPrefix + color + ColorSuffix) == ParseColor(color)
  {
    var json := ColorPrefix + color + ColorSuffix;
    assert json[..|ColorPrefix|] == ColorPrefix;
    assert json[|ColorPrefix|..|ColorPrefix| + 7] == color;
    assert json[|ColorPrefix| + 7..] == ColorSuffix;
  }

  /** The fixed parts of a start reply are ASCII. */
  lemma FrameIsAscii()
    ensures Utf8.IsAscii(ColorPrefix) && Utf8.IsAscii(ColorSuffix)
  {
  }

  /** A start reply is ASCII text from which its colour reads back. */
  lemma StartJsonRoundTrip(c: Color)
    ensures Utf8.IsAscii(StartJson(NewResponseStart(c)))
    ensures ReadStartJson(StartJson(NewResponseStart(c))) == Some(Rgb(c.r, c.g, c.b))
  {
    var rs := NewResponseStart(c);
    StartJsonShape(rs);
    ReadFramedColor(rs.color);
    assert Utf8.IsAscii(rs.color) by {
      forall i | 0 <= i < |rs.color|
        ensures rs.color[i] as int < 0x80
      {
        if i > 0 {
          assert IsUpperHexDigit(rs.color[i]);
        }
      }
    }
    FrameIsAscii();
    Utf8.AsciiConcat(ColorPrefix, rs.color);
    Utf8.AsciiConcat(ColorPrefix + rs.color, ColorSuffix);
  }

  /** Both round trips for whatever the controller returns on body. */
  lemma RepliesReadBack(body: RequestBody, ctrl: Controller)
    ensures body.Parsed? && ctrl.move(body.state).Returns? ==>
      var d := ctrl.move(body.state).value;
      Utf8.IsAscii(MoveJson(NewResponseMove(d))) && ReadMoveJson(MoveJson(NewResponseMove(d))) == Some(d)
    ensures body.Parsed? && ctrl.start(body.state).Returns? ==>
      var c := ctrl.start(body.state).value;
      Utf8.IsAscii(StartJson(NewResponseStart(c)))
      && ReadStartJson(StartJson(NewResponseStart(c))) == Some(Rgb(c.r, c.g, c.b))
  {
    if body.Parsed? && ctrl.move(body.state).Returns? {
      MoveJsonRoundTrip(ctrl.move(body.state).value);
    }
    if body.Parsed? && ctrl.start(body.state).Returns? {
      StartJsonRoundTrip(ctrl.start(body.state).value);
    }
  }

  /** `ParseGameState`: any parse failure, and a body that parses to null,
      becomes a `StopServingException(400)`. */
  function ParseGameState(body: RequestBody): (r: Result<GameState, Exit>)
    ensures r.Ok? <==> body.Parsed?
    ensures r.Ok? ==> r.value == body.state
    ensures r.Err? ==> r.error == StopServing(StatusBadRequest)
  {
    match body
    case Parsed(state) => Ok(state)
    case _ => Err(StopServing(StatusBadRequest))
  }

  /** `ReplyJson`: sets the status and content type, and writes the UTF-8
      bytes of the text with a content length equal to their number. */
  function ReplyJson(r: Response, code: int, json: string): (out: Response)
    ensures out.statusCode == code && out.contentType == Some("application/json")
    ensures out.content == Utf8.Encode(json)
    ensures WellFormed(out)
    ensures Utf8.IsAscii(json) ==> out.contentLength == Some(|json|)
  {
    var bytes := Utf8.Encode(json);
    Utf8.AsciiByteCount(json);
    r.(statusCode := code, contentType := Some("application/json"),
       contentLength := Some(|bytes|), content := bytes)
  }

  /** The response before any branch has run: status 503, nothing written. */
  const Initial := Response(StatusServiceUnavailable, None, None, [])

  /** The `try` block of `HandleRequest`: routing, parsing, the controller
      call and the reply. */
  function TryBlock(path: string, body: RequestBody, ctrl: Controller): Step {
    if path == "/ping" then
      Step(Initial.(statusCode := StatusOk), None, Completed)
    else if path == "/start" then
      match ParseGameState(body)
      case Err(e) => Step(Initial, None, e)
      case Ok(state) =>
        match ctrl.start(state)
        case Throws => Step(Initial, Some(StartOp), Uncaught)
        case Returns(color) =>
          Step(ReplyJson(Initial, StatusOk, StartJson(NewResponseStart(color))), Some(StartOp), Completed)
    else if path == "/move" then
      match ParseGameState(body)
      case Err(e) => Step(Initial, None, e)
      case Ok(state) =>
        match ctrl.move(state)
        case Throws => Step(Initial, Some(MoveOp), Uncaught)
        case Returns(d) =>
          Step(ReplyJson(Initial, StatusOk, MoveJson(NewResponseMove(d))), Some(MoveOp), Completed)
    else if path == "/end" then
      match ParseGameState(body)
      case Err(e) => Step(Initial, None, e)
      case Ok(state) =>
        match ctrl.end(state)
        case Throws => Step(Initial, Some(EndOp), Uncaught)
        case Returns(_) => Step(Initial.(statusCode := StatusOk), Some(EndOp), Completed)
    else
      Step(Initial, None, StopServing(StatusNotFound))
  }

  /** `HandleRequest`: the `try` block followed by its `catch` clauses. A
      `StopServingException` sets its status; any other exception is logged
      and leaves the status at 503. */
  function HandleRequest(path: string, body: RequestBody, ctrl: Controller): (h: Handled)
    ensures h.response.statusCode in {StatusOk, StatusBadRequest, StatusNotFound, StatusServiceUnavailable}
    ensures WellFormed(h.response)
    ensures path == "/ping" ==> h.response == Response(StatusOk, None, None, []) && h.invoked == None
    ensures !IsRoute(path) ==> h.response == Initial.(statusCode := StatusNotFound) && h.invoked == None
    ensures IsGameRoute(path) && !body.Parsed? ==>
      h.response == Initial.(statusCode := StatusBadRequest) && h.invoked == None
    ensures IsGameRoute(path) && body.Parsed? ==> h.invoked == Some(OperationOf(path))
    ensures IsGameRoute(path) && body.Parsed? && !CallReturns(ctrl, OperationOf(path), body.state) ==>
      h.response == Initial
    ensures path == "/move" && body.Parsed? && ctrl.move(body.state).Returns? ==>
      var json := MoveJson(NewResponseMove(ctrl.move(body.state).value));
      && h.response.statusCode == StatusOk
      && h.response.contentType == Some("application/json")
      && h.response.content == Utf8.Encode(json)
      && h.response.contentLength == Some(|json|)
      && ReadMoveJson(json) == Some(ctrl.move(body.state).value)
    ensures path == "/start" && body.Parsed? && ctrl.start(body.state).Returns? ==>
      var c := ctrl.start(body.state).value;
      var json := StartJson(NewResponseStart(c));
      && h.response.statusCode == StatusOk
      && h.response.contentType == Some("application/json")
      && h.response.content == Utf8.Encode(json)
      && h.response.contentLength == Some(|json|)
      && ReadStartJson(json) == Some(Rgb(c.r, c.g, c.b))
    ensures path == "/end" && body.Parsed? && ctrl.end(body.state).Returns? ==>
      h.response == Response(StatusOk, None, None, [])
  {
    RepliesReadBack(body, ctrl);
    var step := TryBlock(path, body, ctrl);
    match step.exit
    case StopServing(code) => Handled(step.response.(statusCode := code), step.invoked)
    case _ => Handled(step.response, step.invoked)
  }

  /** A request succeeds exactly when it is a ping, or a game request whose
      body parsed and whose controller callback returned. */
  lemma SuccessIff(path: string, body: RequestBody, ctrl: Controller)
    ensures HandleRequest(path, body, ctrl).response.statusCode == StatusOk <==>
      (path == "/ping" || (IsGameRoute(path) && body.Parsed? && CallReturns(ctrl, OperationOf(path), body.state)))
  {
  }

  /** The controller is called exactly for a game request whose body parsed. */
  lemma InvokedIff(path: string, body: RequestBody, ctrl: Controller)
    ensures HandleRequest(path, body, ctrl).invoked.Some? <==> IsGameRoute(path) && body.Parsed?
  {
  }

  // Lifecycle: construction and disposal.

  /** The `HttpListener`: its URL prefixes and whether it is listening or
      closed. */
  datatype Listener = Listener(prefixes: seq<string>, listening: bool, closed: bool)

  /** The server's state; `stops` and `closes` count the calls made to the
      listener's `Stop` and `Close`. */
  datatype Server = Server(listener: Listener, controller: Controller, disposed: bool, stops: nat, closes: nat)

  datatype ArgumentNullException = ArgumentNullException(paramName: string)

  /** The constructor: rejects a null controller, otherwise creates a
      listener on the root prefix that is not yet listening. */
  function NewServer(root: string, controller: Option<Controller>): (r: Result<Server, ArgumentNullException>)
    ensures r.Err? <==> controller.None?
    ensures r.Err? ==> r.error == ArgumentNullException("controller")
    ensures r.Ok? ==> r.value.listener == Listener([root], false, false)
    ensures r.Ok? ==> !r.value.disposed && r.value.stops == 0 && r.value.closes == 0
  {
    match controller
    case None => Err(ArgumentNullException("controller"))
    case Some(c) => Ok(Server(Listener([root], false, false), c, false, 0, 0))
  }

  /** `Dispose(bool)`: does nothing once disposed; otherwise, when disposing
      manually, stops the listener if it is listening and closes it; in
      both cases the server ends disposed. */
  function DisposeCore(s: Server, manuallyDisposing: bool): (r: Server)
    ensures r.disposed
    ensures s.disposed ==> r == s
    ensures r.listener.prefixes == s.listener.prefixes
    ensures r.closes == s.closes + 1 <==> !s.disposed && manuallyDisposing
    ensures r.closes <= s.closes + 1
    ensures r.stops == s.stops + 1 <==> !s.disposed && manuallyDisposing && s.listener.listening
    ensures r.stops <= s.stops + 1
    ensures !s.disposed && manuallyDisposing ==> r.listener.closed && !r.listener.listening
    ensures !s.disposed && !manuallyDisposing ==> r == s.(disposed := true)
    ensures r.controller == s.controller && r.closes >= s.closes && r.stops >= s.stops
  {
    if s.disposed then s
    else if manuallyDisposing then
      var stopped := if s.listener.listening then 1 else 0;
      s.(listener := s.listener.(listening := false, closed := true),
         stops := s.stops + stopped, closes := s.closes + 1, disposed := true)
    else
      s.(disposed := true)
  }

  /** The public `Dispose()`: a manual disposal. */
  function Dispose(s: Server): (r: Server)
    ensures r.disposed
    ensures !s.disposed ==> r.listener.closed && !r.listener.listening && r.closes == s.closes + 1
    ensures s.disposed ==> r == s
  {
    DisposeCore(s, true)
  }

  /** Disposing twice is disposing once. */
  lemma DisposeIdempotent(s: Server)
    ensures Dispose(Dispose(s)) == Dispose(s)
  {
  }

  /** The state after a sequence of disposals, each manual (`Dispose()`) or
      automatic (the finalizer). */
  function DisposeAll(s: Server, calls: seq<bool>): Server
    decreases |calls|
  {
    if |calls| == 0 then s else DisposeAll(DisposeCore(s, calls[0]), calls[1..])
  }

  /** Once disposed, further disposals change nothing. */
  lemma {:induction false} DisposedIsFixed(s: Server, calls: seq<bool>)
    requires s.disposed
    ensures DisposeAll(s, calls) == s
    decreases |calls|
  {
    if |calls| > 0 {
      DisposedIsFixed(DisposeCore(s, calls[0]), calls[1..]);
    }
  }

  /** However many times disposal runs on a fresh server, the listener is
      stopped and closed at most once — and closed exactly when the first
      disposal is a manual one. */
  lemma ReleasedAtMostOnce(s: Server, calls: seq<bool>)
    requires !s.disposed && s.stops == 0 && s.closes == 0
    ensures var t := DisposeAll(s, calls);
      && t.closes <= 1 && t.stops <= 1
      && (t.closes == 1 <==> |calls| > 0 && calls[0])
      && (t.stops == 1 <==> |calls| > 0 && calls[0] && s.listener.listening)
      && (t.disposed <==> |calls| > 0)
  {
    if |calls| > 0 {
      DisposedIsFixed(DisposeCore(s, calls[0]), calls[1..]);
    }
  }
}

=== FILE: snakes.dfy ===
/** `Snake`: one snake of the game state, with the body listed from head
    (index 0) to tail (last index). The engine signals growth still to come
    by repeating the tail coordinate at the end of the body; `GrowthLeft` and
    `EffectiveLength` recover it. */
module Snakes {
  import opened Numerics
  import opened Coords

  datatype Snake = Snake(id: string, name: string, health: Int32, body: seq<Coord>)

  /** `Head`: the first body part; the body must not be empty. */
  function Head(s: Snake): (r: Coord)
    requires |s.body| > 0
    ensures r in s.body && r == s.body[0]
  {
    s.body[0]
  }

  /** `Tail`: the last body part; the body must not be empty. */
  function Tail(s: Snake): (r: Coord)
    requires |s.body| > 0
    ensures r in s.body && r == s.body[|s.body| - 1]
  {
    s.body[|s.body| - 1]
  }

  /** Reference definition: how many entries at the end of parts equal t. */
  function TrailingRun(parts: seq<Coord>, t: Coord): (n: nat)
    ensures n <= |parts|
  {
    if |parts| == 0 || parts[|parts| - 1] != t then 0
    else 1 + TrailingRun(parts[..|parts| - 1], t)
  }

  /** The run of t at the end of parts is exactly k entries long: the last k
      entries are t and the entry before them (if any) is not. */
  ghost predicate IsMaximalRun(parts: seq<Coord>, t: Coord, k: int) {
    && 0 <= k <= |parts|
    && (forall j :: |parts| - k <= j < |parts| ==> parts[j] == t)
    && (k < |parts| ==> parts[|parts| - 1 - k] != t)
  }

  /** TrailingRun measures exactly the maximal run, in both directions. */
  lemma {:induction false} TrailingRunIsMaximalRun(parts: seq<Coord>, t: Coord, k: int)
    ensures TrailingRun(parts, t) == k <==> IsMaximalRun(parts, t, k)
  {
    if |parts| == 0 || parts[|parts| - 1] != t {
    } else {
      var init := parts[..|parts| - 1];
      TrailingRunIsMaximalRun(init, t, k - 1);
      if IsMaximalRun(parts, t, k) {
        assert IsMaximalRun(init, t, k - 1) by {
          forall j | |init| - (k - 1) <= j < |init|
            ensures init[j] == t
          {
            assert init[j] == parts[j];
          }
          if k - 1 < |init| {
            assert init[|init| - 1 - (k - 1)] == parts[|parts| - 1 - k];
          }
        }
      }
      if TrailingRun(parts, t) == k {
        assert IsMaximalRun(init, t, k - 1);
        forall j | |parts| - k <= j < |parts|
          ensures parts[j] == t
        {
          if j < |parts| - 1 {
            assert init[j] == parts[j];
          }
        }
        if k < |parts| {
          assert parts[|parts| - 1 - k] == init[|init| - 1 - (k - 1)];
        }
      }
    }
  }

  /** The growth still to come, by definition: the entries before the tail
      that repeat it, counted backward from the second-to-last. */
  function GrowthSpec(s: Snake): nat
    requires |s.body| > 0
  {
    TrailingRun(s.body[..|s.body| - 1], Tail(s))
  }

  /** `GrowthLeft`: the backward scan from index |body|-2, stopping at the
      first entry that differs from the tail. The C# `int` result cannot
      overflow since it is below the body's `List.Count`. */
  method GrowthLeft(s: Snake) returns (result: nat)
    requires |s.body| > 0
    ensures result == GrowthSpec(s)
    ensures result <= |s.body| - 1
    ensures forall j :: |s.body| - 1 - result <= j < |s.body| ==> s.body[j] == Tail(s)
    ensures |s.body| - 2 - result >= 0 ==> s.body[|s.body| - 2 - result] != Tail(s)
  {
    result := 0;
    var tail := Tail(s);
    var i := |s.body| - 2;
    while i >= 0
      invariant -1 <= i <= |s.body| - 2
      invariant result == |s.body| - 2 - i
      invariant forall j :: i < j < |s.body| ==> s.body[j] == tail
    {
      if Equals(s.body[i], tail) {
        result := result + 1;
      } else {
        break;
      }
      i := i - 1;
    }
    ghost var parts := s.body[..|s.body| - 1];
    assert IsMaximalRun(parts, tail, result) by {
      forall j | |parts| - result <= j < |parts|
        ensures parts[j] == tail
      {
        assert parts[j] == s.body[j];
      }
      if result < |parts| {
        assert parts[|parts| - 1 - result] == s.body[i];
      }
    }
    TrailingRunIsMaximalRun(parts, tail, result);
  }

  /** `EffectiveLength`: the real length, not counting repeated tail parts
      that have not grown yet. */
  function EffectiveLength(s: Snake): (r: int)
    requires |s.body| > 0
    ensures 1 <= r <= |s.body|
    ensures r + GrowthSpec(s) == |s.body|
  {
    |s.body| - GrowthSpec(s)
  }

  /** A snake whose effective length is 1 is stacked on one cell: its head
      is its tail. */
  lemma FullyStackedHeadIsTail(s: Snake)
    requires |s.body| > 0 && EffectiveLength(s) == 1
    ensures Head(s) == Tail(s)
  {
    var parts := s.body[..|s.body| - 1];
    TrailingRunIsMaximalRun(parts, Tail(s), |parts|);
    if |s.body| > 1 {
      assert parts[0] == s.body[0];
    }
  }

  /** No repeated tail: no growth left, and every body part counts. */
  lemma NoGrowthWithoutDuplicateTail(s: Snake)
    requires |s.body| > 0
    requires |s.body| == 1 || s.body[|s.body| - 2] != Tail(s)
    ensures GrowthSpec(s) == 0 && EffectiveLength(s) == |s.body|
  {
  }

  /** Growth left is zero only when the tail is not repeated. */
  lemma GrowthZeroIff(s: Snake)
    requires |s.body| > 0
    ensures GrowthSpec(s) == 0 <==> (|s.body| == 1 || s.body[|s.body| - 2] != Tail(s))
  {
    var parts := s.body[..|s.body| - 1];
    if |s.body| > 1 {
      assert parts[|parts| - 1] == s.body[|s.body| - 2];
    }
  }

  /** A body of n equal parts (a freshly spawned snake) has n-1 growth left
      and effective length 1. */
  lemma {:induction false} AllSameBody(s: Snake)
    requires |s.body| > 0
    requires forall j :: 0 <= j < |s.body| ==> s.body[j] == s.body[0]
    ensures GrowthSpec(s) == |s.body| - 1 && EffectiveLength(s) == 1
  {
    var parts := s.body[..|s.body| - 1];
    assert IsMaximalRun(parts, Tail(s), |parts|) by {
      forall j | 0 <= j < |parts|
        ensures parts[j] == Tail(s)
      {
        assert parts[j] == s.body[j];
      }
    }
    TrailingRunIsMaximalRun(parts, Tail(s), |parts|);
  }

  /** Three parts stacked at (5,5), as a new snake's body is: growth 2,
      effective length 1. */
  lemma ThreeStackedParts()
    ensures var s := Snake("s", "n", 100, [Coord(5, 5), Coord(5, 5), Coord(5, 5)]);
      GrowthSpec(s) == 2 && EffectiveLength(s) == 1
  {
    var s := Snake("s", "n", 100, [Coord(5, 5), Coord(5, 5), Coord(5, 5)]);
    AllSameBody(s);
  }
}

=== FILE: utf8.dfy ===
/** UTF-8 encoding of text, as `Encoding.UTF8.GetBytes` produces it; a
    Dafny `char` is a Unicode scalar value. */
module Utf8 {
  import opened Numerics

  predicate IsAscii(s: string) {
    forall i :: 0 <= i < |s| ==> s[i] as int < 0x80
  }

  /** The one to four bytes of one scalar value. */
  function EncodeChar(c: char): (r: seq<Byte>)
    ensures 1 <= |r| <= 4
    ensures |r| == 1 <==> c as int < 0x80
    ensures c as int < 0x80 ==> r == [c as int]
  {
    var cp := c as int;
    if cp < 0x80 then [cp]
    else if cp < 0x800 then [0xC0 + cp / 0x40, 0x80 + cp % 0x40]
    else if cp < 0x1_0000 then [0xE0 + cp / 0x1000, 0x80 + cp / 0x40 % 0x40, 0x80 + cp % 0x40]
    else [0xF0 + cp / 0x4_0000 % 0x8, 0x80 + cp / 0x1000 % 0x40, 0x80 + cp / 0x40 % 0x40, 0x80 + cp % 0x40]
  }

  function Encode(s: string): (r: seq<Byte>)
    ensures |s| <= |r| <= 4 * |s|
  {
    if |s| == 0 then [] else EncodeChar(s[0]) + Encode(s[1..])
  }

  /** ASCII text encodes to one byte per character, the character's code. */
  lemma {:induction false} EncodeAscii(s: string)
    requires IsAscii(s)
    ensures |Encode(s)| == |s|
    ensures forall i :: 0 <= i < |s| ==> Encode(s)[i] == s[i] as int
  {
    if |s| > 0 {
      assert IsAscii(s[1..]) by {
        forall i | 0 <= i < |s[1..]|
          ensures s[1..][i] as int < 0x80
        {
          assert s[1..][i] == s[i + 1];
        }
      }
      EncodeAscii(s[1..]);
      forall i | 0 <= i < |s|
        ensures Encode(s)[i] == s[i] as int
      {
        if i > 0 {
          assert Encode(s)[i] == Encode(s[1..])[i - 1];
          assert s[1..][i - 1] == s[i];
        }
      }
    }
  }

  /** The byte count of ASCII text is its character count. */
  lemma AsciiByteCount(s: string)
    ensures IsAscii(s) ==> |Encode(s)| == |s|
  {
    if IsAscii(s) {
      EncodeAscii(s);
    }
  }

  /** Joining ASCII texts gives ASCII text. */
  lemma AsciiConcat(a: string, b: string)
    requires IsAscii(a) && IsAscii(b)
    ensures IsAscii(a + b)
  {
    forall i | 0 <= i < |a + b|
      ensures (a + b)[i] as int < 0x80
    {
      if i >= |a| {
        assert (a + b)[i] == b[i - |a|];
      }
    }
  }
}
